=== FILE: README.md ===
# Sentence post-processing of the NetBERT corpus builder

This project is a Dafny model of the text pipeline in `Code/clean_text.py`,
the script that builds NetBERT's pre-training corpus. It reads the `text`
field of every JSON record, normalises each document, splits it into
sentences, cleans the sentences (`sent_cleaning`), writes each document as
one line per sentence (`sent_convert`), and joins the documents with blank
lines.

Modules:

- `Wrappers`: `Option` and `Result`.
- `Lists`: filtering a list with a partial step (`FilterMap`), with an
  order-preservation characterisation. Also a map that stops at the first
  failure (`TryMap`), which is how a pandas `apply` behaves when the applied
  function raises.
- `PyStrings`: the Python string primitives the script relies on, over
  `seq<char>`:
  - `str.isspace` (the regex `\s` uses the same set);
  - `str.isdigit`;
  - `str.split()` (`Words`);
  - `str.split(maxsplit=1)` (`SplitFirst`);
  - `sep.join` (`Join`).

  It also holds `str.split(c)` (`SplitOn`). The script never calls it; the
  model uses it to read the joined output of lines 43 and 81 back into
  lines.
- `Normalize`: the three column operations of lines 68-70: collapse each
  whitespace run to one space, drop non-ASCII code points, lower-case.
- `SentenceFilter`: `sent_cleaning`. It runs four passes in order:
  1. a leading all-digit token is removed;
  2. a leading token that starts with a special character is removed;
  3. sentences with 15 or more copies of one special character are dropped;
  4. sentences of two or fewer tokens are dropped.

  The module also holds a fused one-pass form, `CleanAll`, proved equal to
  the four passes when no sentence is blank. On a blank sentence the four
  passes raise, while `CleanAll` drops it.
- `Joiner`: `sent_convert`, the `"\n\n"` join, and the line structure of the
  output text.
- `Corpus`: the whole run. It goes from the records to the output text, with
  the sentence splitter as a parameter. `OutputLines` states, line by line,
  the text a successful run writes.

### Where the model follows the code rather than its comments

- Step 2 (line 27) removes the whole first token, as `split(maxsplit=1)[1]`
  does, not only the special character the comment on line 25 mentions. So
  `"(a) b c d"` becomes `"b c d"`.
- Step 3 (line 31) bounds the count of each special character separately
  (`max` of the per-character counts < 15). It does not bound their total.
- The passes run in the order written. A sentence whose first token is noisy
  loses that token in step 2 and can then survive step 3
  (`SentenceFilter.NoisyFirstTokenSurvives`).
- Steps 1 and 2 act only when a second token exists. A lone number, such as
  `"7"`, is left unchanged by step 1.
- A blank (empty or all-whitespace) sentence makes
  `sent.split(maxsplit=1)[0]` raise `IndexError` on line 23. The model
  returns `Failure(BlankSentence(i))` for the first such sentence `i`.
- A record whose `text` list is empty makes `text[0]` raise on line 61. The
  model returns `Failure(EmptyText(i))` for the first such record. Records
  without a `text` field are skipped.
- When no record has a `text` field, `rows` stays empty and
  `pd.DataFrame([])` has no `Text` column, so `df.Text` on line 68 raises
  `AttributeError`. The model returns `Failure(NoDocuments)`.
- The normalisation is not idempotent. Dropping a non-ASCII character can
  leave two spaces side by side, so `" é "` normalises to `"  "`, and that
  normalises again to `" "`. It is idempotent on ASCII input.

## Model

| member | source | states |
|---|---|---|
| Lists.FilterMapSelectsKept | Code/clean_text.py:23-34 | keeping what a partial step yields selects exactly the elements it keeps, at strictly increasing positions, each output being the step's result for its element |
| Lists.FilterMapConcat | Code/clean_text.py:58-62 | filtering a concatenation is the concatenation of the filtered parts |
| Lists.TryMap | Code/clean_text.py:76 | applying a failing step to every element succeeds iff it succeeds on every element; on failure it reports the first failing position and its error, on success the results elementwise |
| Lists.Map | Code/clean_text.py:68-78 | a column operation applies its step to every element, in order, and keeps the length |
| PyStrings.SpaceSet | Code/clean_text.py:68 | the whitespace of `\s` and `str.split()` is Python's `isspace` set: it includes U+000B, U+000C, U+001C-U+001F, U+0085, U+00A0, U+2028 and U+3000, and excludes the zero-width space and the byte-order mark |
| PyStrings.DigitTokens | Code/clean_text.py:23 | `isdigit` holds of `"7"` and `"2019"` but not of the empty string, `"-1"`, `"1.5"` or `"7a"` |
| PyStrings.Words | Code/clean_text.py:34 | `str.split()` gives no token exactly when the text is blank |
| PyStrings.WordsAreWords | Code/clean_text.py:34 | every token of `str.split()` is non-empty and free of whitespace |
| PyStrings.FirstWordSplit | Code/clean_text.py:23 | a non-blank text is its leading whitespace, its first token and the rest, in that order |
| PyStrings.SplitFirstAgreesWithWords | Code/clean_text.py:23-27 | `split(maxsplit=1)` (`SplitFirst`) has one part for a one-token text and two otherwise; its first part is the first token of `split()` and its second part has exactly the remaining tokens, is a suffix of the text and starts on a token |
| PyStrings.WordsJoinRoundTrip | Code/clean_text.py:34 | splitting tokens joined with single spaces gives the tokens back |
| PyStrings.JoinLength | Code/clean_text.py:43 | a join is as long as its parts plus one separator per gap |
| PyStrings.Join | Code/clean_text.py:43 | `sep.join`: no parts give the empty text, one part gives itself, and the first part begins the result; `SplitJoinRoundTrip` pins the rest for a one-character separator that no part holds (line 43), and `CorpusLines` pins the `"\n\n"` join of line 81 |
| PyStrings.SplitOn | Code/clean_text.py:81 | Python's `str.split(c)`, which the script does not call; it reads the joined output back into lines. It gives at least one piece and no piece holds `c` |
| PyStrings.SplitOnConcat | Code/clean_text.py:81 | reading back: splitting two texts glued by the separator gives the pieces of each, in order |
| PyStrings.SplitJoinRoundTrip | Code/clean_text.py:43 | joining parts that do not hold the separator and splitting at it gives the parts back |
| Normalize.CollapseSpaces | Code/clean_text.py:68 | collapsing whitespace never lengthens a text, keeps it empty exactly when it was, and keeps whether it starts and whether it ends with whitespace |
| Normalize.CollapseIsCollapsed | Code/clean_text.py:68 | after collapsing, the only whitespace is a plain space and no two whitespace characters are adjacent |
| Normalize.CollapseKeepsWords | Code/clean_text.py:68 | collapsing whitespace keeps the `str.split()` tokens unchanged |
| Normalize.CollapseFixpoint | Code/clean_text.py:68 | collapsing leaves a text unchanged exactly when it is already collapsed |
| Normalize.CollapseKeepsAscii | Code/clean_text.py:68-69 | collapsing an ASCII text leaves it ASCII |
| Normalize.StripNonAscii | Code/clean_text.py:69 | the ASCII encode/decode leaves only code points below 128, never lengthens, and is the identity on ASCII text |
| Normalize.StripNonAsciiConcat | Code/clean_text.py:69 | dropping non-ASCII code points distributes over concatenation |
| Normalize.StripNonAsciiKeepsSpaces | Code/clean_text.py:69 | dropping code points adds no whitespace other than plain spaces |
| Normalize.Lower | Code/clean_text.py:70 | lower-casing keeps the length, maps each of `A`-`Z` to the letter 32 code points above it, changes nothing else, and so leaves no `A`-`Z`, keeps whitespace where it was and keeps ASCII text ASCII |
| Normalize.LowerIdempotent | Code/clean_text.py:70 | lower-casing twice is lower-casing once |
| Normalize.NormalizeText | Code/clean_text.py:68-70 | a normalised text is ASCII, has no `A`-`Z`, is no longer than the input, holds only plain spaces as whitespace and no line break |
| Normalize.NormalizeIdempotentOnAscii | Code/clean_text.py:68-70 | on ASCII input, normalising twice is normalising once |
| Normalize.NormalizeNotIdempotent | Code/clean_text.py:68-70 | for any non-space code point `x` >= 128, `" x "` normalises to two spaces, and a second pass gives one |
| SentenceFilter.MaxCount | Code/clean_text.py:31 | the maximum bounds every character's count and is reached by one of them |
| SentenceFilter.CountIsMultiplicity | Code/clean_text.py:31 | `s.count(c)` (`Count`) is the multiplicity of `c` in `s` |
| SentenceFilter.NoisyIff | Code/clean_text.py:30-31 | a sentence is noisy (`IsNoisy`: the maximum count reaches 15) exactly when some special character occurs 15 or more times |
| SentenceFilter.StripLeadingNumber | Code/clean_text.py:22-23 | when the first token is all digits and a second token exists, the result is the suffix starting at the second token and holding exactly the later tokens; otherwise the sentence is unchanged |
| SentenceFilter.StripNumberDropsDigits | Code/clean_text.py:22-23 | a digit token followed by a space and a rest that starts on a token becomes that rest, e.g. `"7 hello there world"` becomes `"hello there world"` |
| SentenceFilter.StripNumberKeepsLoneNumber | Code/clean_text.py:22-23 | a sentence that is only a number is left unchanged |
| SentenceFilter.StripLeadingSpecial | Code/clean_text.py:26-27 | when the first character is special and a second token exists, the whole first token goes (the result is shorter than the sentence minus that token, and holds exactly the later tokens); otherwise the sentence is unchanged, so a sentence starting with whitespace is never touched |
| SentenceFilter.StripSpecialDropsToken | Code/clean_text.py:26-27 | a token starting with a special character, a space, and a rest that starts on a token give that rest, e.g. `"(a) b c d"` gives `"b c d"` |
| SentenceFilter.NonDigitTokenKept | Code/clean_text.py:22-23 | a non-blank sentence whose first token does not start with a digit passes step 1 unchanged |
| SentenceFilter.CleanSentence | Code/clean_text.py:22-34 | a sentence that one-sentence cleaning keeps is a suffix of the original, has fewer than 15 copies of each special character, and has more than two tokens |
| SentenceFilter.CleanSentenceWords | Code/clean_text.py:22-34 | the tokens of a kept sentence are those of the original minus at most its first two, so it has no more tokens than the original |
| SentenceFilter.ShortSentenceDropped | Code/clean_text.py:33-34 | a sentence of two or fewer tokens is always dropped, e.g. `"ok fine"` |
| SentenceFilter.RepeatsMakeNoise | Code/clean_text.py:30-31 | a text that holds 15 copies of one special character is noisy, e.g. 20 dots |
| SentenceFilter.NoisyFirstTokenSurvives | Code/clean_text.py:25-31 | a noisy first token that starts with a special character is stripped in step 2, so the sentence survives step 3 |
| SentenceFilter.NoisySentenceDropped | Code/clean_text.py:22-31 | a noisy sentence that steps 1 and 2 leave unchanged, because it starts with neither a number token nor a special character, is dropped in step 3 |
| SentenceFilter.Filter | Code/clean_text.py:31-34 | a list filter keeps only elements that pass, keeps every element that passes, and never lengthens |
| SentenceFilter.FirstBlank | Code/clean_text.py:23 | the position of the first blank sentence: every earlier one is non-blank |
| SentenceFilter.NumberPass | Code/clean_text.py:22-23 | step 1 over a list fails exactly when a sentence is blank, and then names the first blank one; otherwise it keeps the length and maps each sentence to its `StripLeadingNumber`, a suffix of itself |
| SentenceFilter.SpecialPass | Code/clean_text.py:25-27 | step 2 over a list keeps the length and maps each sentence to its `StripLeadingSpecial`, a suffix of itself |
| SentenceFilter.LaterPasses | Code/clean_text.py:25-34 | steps 2 to 4 never lengthen the list, and every sentence they return is quiet and has more than two tokens |
| SentenceFilter.SentCleaning | Code/clean_text.py:19-35 | `sent_cleaning` fails exactly when a sentence is blank, and names the first one; otherwise it returns no more sentences than it got, each with fewer than 15 copies of each special character and more than two tokens |
| SentenceFilter.SentCleaningCons | Code/clean_text.py:19-35 | on non-blank sentences, cleaning a list is cleaning its head alone followed by cleaning its tail |
| SentenceFilter.CleaningFusion | Code/clean_text.py:19-35 | when no sentence is blank, the four passes equal one pass that cleans each sentence alone and keeps those that survive |
| SentenceFilter.CleaningKeepsOrder | Code/clean_text.py:19-35 | on non-blank sentences, cleaning succeeds; it neither reorders nor invents sentences, since each output is the cleaned form of an input at a strictly increasing position, every surviving input appears, and each output is a suffix of its input |
| Joiner.SentConvert | Code/clean_text.py:38-43 | `sent_convert` of no sentences is empty and of one sentence is that sentence; for a non-empty list of sentences none of which holds a line break, splitting it at line breaks gives the sentences back |
| Joiner.DocLinesHold | Code/clean_text.py:81 | when every sentence satisfies a test, every line of the output is empty or satisfies it |
| Joiner.SplitAtBlankLine | Code/clean_text.py:81 | the blank-line join of `JoinDocuments` splits into the lines of both sides with one empty line between them |
| Joiner.CorpusLines | Code/clean_text.py:78-81 | the output text (`CorpusText`) splits at line breaks into each document's sentences, with one empty line between documents |
| Joiner.CorpusTextExample | Code/clean_text.py:78-81 | `[[a, b], [c]]` gives `a\nb\n\nc` |
| Corpus.ExtractTexts | Code/clean_text.py:58-62 | reading fails exactly when a record has an empty `text` list, naming the first; otherwise it returns the first element of every record that has `text`, in order |
| Corpus.SkipsMissingText | Code/clean_text.py:58-62 | a record without `text` contributes nothing |
| Corpus.ExtractConcat | Code/clean_text.py:50-62 | reading two files in turn fails iff either fails, and otherwise returns the texts of the first followed by those of the second |
| Corpus.Segmented | Code/clean_text.py:68-74 | every document text is normalised and then split into sentences, one list of sentences per text, in order |
| Corpus.CleanEach | Code/clean_text.py:76 | cleaning all documents succeeds iff every document cleans; on failure it names the first document that raises and the blank sentence in it, on success the cleaned documents elementwise |
| Corpus.CleanCorpus | Code/clean_text.py:58-81 | the run fails exactly when reading the records fails, when no record has `text`, or when cleaning some document fails; it reports the first empty `text` list as `EmptyText`, no documents as `NoDocuments` (the `AttributeError` of line 68), and the first document that raises on a blank sentence with that sentence as `BlankSentenceIn` |
| Corpus.CleanCorpusSucceeds | Code/clean_text.py:58-81 | the run raises only on an empty `text` list, on records none of which has `text`, or on a blank sentence the splitter gives one of the documents it reads: with none of these, it succeeds |
| Corpus.SomeTextRead | Code/clean_text.py:58-62 | with no empty `text` list and some record carrying `text`, reading succeeds with at least one document, the first elements of the `text` lists in record order |
| Corpus.CleanEachSucceeds | Code/clean_text.py:76 | when the splitter gives no document a blank sentence, cleaning raises on none of them |
| Corpus.CleanedNoNewline | Code/clean_text.py:76 | cleaning introduces no line break into any sentence |
| Corpus.OutputLinesAreKept | Code/clean_text.py:74-81 | with a splitter that adds no line break, every line of the output text is empty or a kept sentence: fewer than 15 copies of each special character and more than two tokens |
| Corpus.CleanEachIsFused | Code/clean_text.py:76 | cleaning every document without a raise gives, for each document, exactly the sentences the one-pass form keeps |
| Corpus.OutputLines | Code/clean_text.py:58-81 | with a splitter that adds no line break, the output text of a successful run splits at line breaks into, for each document read in order, every sentence `CleanSentence` keeps, in input order and cleaned, with one empty line between documents: nothing kept is missing and nothing else appears |

## Left out

- `sent_segmentation` (spaCy's `en_core_web_sm`, lines 9-16) is a parameter, `segment`. Two things are assumed of it, each only where stated: that it puts no line break into a sentence when its input has none (`OutputLinesAreKept`, `OutputLines`), and that it gives none of the documents read a blank sentence (`CleanCorpusSucceeds`, which states when the run succeeds).
- File reading (`json.load` of files `1.json` to `13.json`) and writing `output.txt` are I/O. The model starts from the records of all files in order, and ends at the output text.
- The pandas DataFrame plumbing, tqdm progress bars and `print` calls are left out. Each column operation becomes a function over a list; the one pandas behaviour kept is the missing `Text` column of a table built from no rows (`NoDocuments`).
- A `text` field that is present but not a list (a string, say) is left out. The model's records hold a list of strings or nothing.
- `Code/Cleaning/New_cleaning/merge_jsons.py` is left out. It is file copying and JSON loading with no logic of its own.
- PyStrings.IsDigit: `str.isdigit` also accepts non-ASCII digits (`'²'`, Arabic-Indic digits). The model accepts `0`-`9` only. In the pipeline the text is already ASCII when step 1 runs, so the two agree there.
- Normalize.Lower: `str.lower` also lower-cases non-ASCII letters. The model lower-cases `A`-`Z` only. In the pipeline it runs after every non-ASCII code point is gone, so the two agree there.
- SentenceFilter.CleanSentence: its own contract states only what a kept sentence satisfies. The exact strips are stated by `StripLeadingNumber`, `StripLeadingSpecial` and the lemmas about them.

=== FILE: corpus.dfy ===
/**
 The corpus pipeline: the document texts are read from the records, each text
 is normalised, split into sentences, cleaned and converted to lines, and the
 documents are joined by blank lines into the output text. The sentence
 splitter is a parameter of the model.
 */
module Corpus {
  import opened Wrappers
  import opened Lists
  import opened PyStrings
  import opened Normalize
  import opened SentenceFilter
  import opened Joiner

  /** One record of an input file: its `text` field, missing (or `null`) or
      a list of strings. */
  datatype Record = Record(text: Option<seq<string>>)

  /** Why the pipeline raised. */
  datatype CorpusError =
    /** The record at this position has an empty `text` list, so it has no
        first element to read. */
    | EmptyText(record: nat)
    /** No record has a `text` field, so the table of documents has no
        `Text` column to normalise. */
    | NoDocuments
    /** The splitter gave document `doc` a blank sentence at `sentence`. */
    | BlankSentenceIn(doc: nat, sentence: nat)

  /** The record's `text` field is an empty list. */
  predicate HasEmptyText(rec: Record) {
    rec.text == Some([])
  }

  /** The text a record contributes, if any: the first element of its
      `text` list. */
  function FirstText(rec: Record): Option<string> {
    match rec.text
    case None => None
    case Some(t) => if |t| == 0 then None else Some(t[0])
  }

  /** Reading the document texts: records without `text` are skipped, and
      every other record contributes the first element of its list; the
      first record whose list is empty makes the whole read fail. */
  function ExtractTexts(records: seq<Record>): (r: Result<seq<string>, CorpusError>)
    ensures r.Failure? <==> exists i | 0 <= i < |records| :: HasEmptyText(records[i])
    ensures r.Failure? ==>
      && r.error.EmptyText?
      && r.error.record < |records| && HasEmptyText(records[r.error.record])
      && forall j | 0 <= j < r.error.record :: !HasEmptyText(records[j])
    ensures r.Success? ==> r.value == FilterMap(FirstText, records)
  {
    if |records| == 0 then Success([])
    else if HasEmptyText(records[0]) then Failure(EmptyText(0))
    else
      match ExtractTexts(records[1..])
      case Failure(e) => Failure(EmptyText(e.record + 1))
      case Success(rest) => Success(Kept(FirstText(records[0])) + rest)
  }

  /** A record without `text` contributes nothing. */
  lemma SkipsMissingText(rec: Record, records: seq<Record>)
    requires rec.text.None?
    ensures ExtractTexts([rec] + records).Success? <==> ExtractTexts(records).Success?
    ensures ExtractTexts(records).Success? ==> ExtractTexts([rec] + records) == ExtractTexts(records)
  {
    assert ([rec] + records)[1..] == records;
    assert !HasEmptyText(rec) && Kept(FirstText(rec)) == [];
    if ExtractTexts(records).Success? {
      assert [] + ExtractTexts(records).value == ExtractTexts(records).value;
    }
  }

  /** Reading two files one after the other reads their records in order,
      and fails exactly when either file has a record with an empty list. */
  lemma ExtractConcat(a: seq<Record>, b: seq<Record>)
    ensures ExtractTexts(a + b).Success? <==> ExtractTexts(a).Success? && ExtractTexts(b).Success?
    ensures ExtractTexts(a + b).Success? ==>
      ExtractTexts(a + b).value == ExtractTexts(a).value + ExtractTexts(b).value
  {
    var ab := a + b;
    assert forall i | 0 <= i < |a| :: ab[i] == a[i];
    assert forall i | 0 <= i < |b| :: ab[|a| + i] == b[i];
    if ExtractTexts(ab).Failure? {
      var i :| 0 <= i < |ab| && HasEmptyText(ab[i]);
      if i >= |a| {
        assert HasEmptyText(b[i - |a|]);
      }
    }
    FilterMapConcat(FirstText, a, b);
  }

  /** The splitter gives no sentence a line break when its input has
      none. */
  ghost predicate KeepsLines(segment: string -> seq<string>) {
    forall t: string :: '\n' !in t ==> NoNewline(segment(t))
  }

  /** The sentences of every document text: each text is normalised, as
      the column operations of lines 68-70 do, then split. */
  function Segmented(texts: seq<string>, segment: string -> seq<string>): (r: seq<seq<string>>)
    ensures |r| == |texts|
    ensures forall i | 0 <= i < |texts| :: r[i] == segment(NormalizeText(texts[i]))
  {
    Map(segment, Map(NormalizeText, texts))
  }

  /** Cleaning the sentences of every document; the first document the
      cleaner raises on makes the whole step fail. */
  function CleanEach(docs: seq<seq<string>>): (r: Result<seq<seq<string>>, CorpusError>)
    ensures r.Success? <==> forall i | 0 <= i < |docs| :: SentCleaning(docs[i]).Success?
    ensures r.Failure? ==>
      && r.error.BlankSentenceIn?
      && r.error.doc < |docs|
      && SentCleaning(docs[r.error.doc]) == Failure(BlankSentence(r.error.sentence))
      && forall j | 0 <= j < r.error.doc :: SentCleaning(docs[j]).Success?
    ensures r.Success? ==>
      && |r.value| == |docs|
      && forall i | 0 <= i < |docs| :: SentCleaning(docs[i]) == Success(r.value[i])
  {
    match TryMap(SentCleaning, docs)
    case Failure(s) => Failure(BlankSentenceIn(s.at, s.error.index))
    case Success(cleaned) => Success(cleaned)
  }

  /** The whole run, one column operation after another: read the records,
      normalise, split and clean every document, join. A table built from no
      rows has no `Text` column, so the first column operation raises when
      no record has `text`. */
  function CleanCorpus(records: seq<Record>, segment: string -> seq<string>): (r: Result<string, CorpusError>)
    ensures r.Failure? <==>
      || ExtractTexts(records).Failure?
      || |ExtractTexts(records).value| == 0
      || CleanEach(Segmented(ExtractTexts(records).value, segment)).Failure?
    ensures ExtractTexts(records).Failure? ==> r == Failure(ExtractTexts(records).error)
    ensures ExtractTexts(records).Success? && |ExtractTexts(records).value| == 0 ==>
      r == Failure(NoDocuments)
    ensures
      && ExtractTexts(records).Success? && |ExtractTexts(records).value| > 0
      && CleanEach(Segmented(ExtractTexts(records).value, segment)).Failure?
      ==> r == Failure(CleanEach(Segmented(ExtractTexts(records).value, segment)).error)
  {
    match ExtractTexts(records)
    case Failure(e) => Failure(e)
    case Success(texts) =>
      if |texts| == 0 then Failure(NoDocuments)
      else
        match CleanEach(Segmented(texts, segment))
        case Failure(e) => Failure(e)
        case Success(docs) => Success(CorpusText(docs))
  }

  /** The splitter gives every document of this run only sentences with a
      token. */
  predicate SegmentsNoBlank(texts: seq<string>, segment: string -> seq<string>) {
    forall i | 0 <= i < |texts| :: NoBlank(segment(NormalizeText(texts[i])))
  }

  /** The run only raises on an empty `text` list, on records none of which
      has `text`, or on a blank sentence among the documents it reads: with
      none of these, it succeeds. */
  lemma CleanCorpusSucceeds(records: seq<Record>, segment: string -> seq<string>)
    requires forall i | 0 <= i < |records| :: !HasEmptyText(records[i])
    requires exists i | 0 <= i < |records| :: records[i].text.Some?
    requires SegmentsNoBlank(FilterMap(FirstText, records), segment)
    ensures CleanCorpus(records, segment).Success?
  {
    SomeTextRead(records);
    CleanEachSucceeds(FilterMap(FirstText, records), segment);
  }

  /** With no empty `text` list and some record carrying `text`, the read
      succeeds with at least one document. */
  lemma SomeTextRead(records: seq<Record>)
    requires forall i | 0 <= i < |records| :: !HasEmptyText(records[i])
    requires exists i | 0 <= i < |records| :: records[i].text.Some?
    ensures ExtractTexts(records) == Success(FilterMap(FirstText, records))
    ensures |FilterMap(FirstText, records)| > 0
  {
    var i :| 0 <= i < |records| && records[i].text.Some?;
    FilterMapNonEmpty(FirstText, records, i);
  }

  /** Cleaning raises on none of the documents when none of them is split
      into a blank sentence. */
  lemma CleanEachSucceeds(texts: seq<string>, segment: string -> seq<string>)
    requires SegmentsNoBlank(texts, segment)
    ensures CleanEach(Segmented(texts, segment)).Success?
  {
    var segmented := Segmented(texts, segment);
    forall d | 0 <= d < |segmented| ensures SentCleaning(segmented[d]).Success? {
      assert FirstBlank(segmented[d]) == |segmented[d]|;
    }
  }

  /** A suffix of a text without line breaks has none either. */
  lemma SuffixNoNewline(a: string, b: string)
    requires IsSuffix(a, b) && '\n' !in b
    ensures '\n' !in a
  {
    assert forall i | 0 <= i < |a| :: a[i] == b[|b| - |a| + i];
  }

  /** A cleaned document has no line break in any sentence when its
      sentences had none. */
  lemma CleanedNoNewline(sents: seq<string>)
    requires NoNewline(sents) && NoBlank(sents)
    ensures NoNewline(SentCleaning(sents).value)
  {
    var idx := CleaningKeepsOrder(sents);
    var out := SentCleaning(sents).value;
    forall k | 0 <= k < |out| ensures '\n' !in out[k] {
      SuffixNoNewline(out[k], sents[idx[k]]);
    }
  }

  /** Cleaning every document adds no line break. */
  lemma CleanEachNoNewline(segmented: seq<seq<string>>)
    requires AllNoNewline(segmented) && CleanEach(segmented).Success?
    ensures AllNoNewline(CleanEach(segmented).value)
  {
    var docs := CleanEach(segmented).value;
    forall i | 0 <= i < |docs| ensures NoNewline(docs[i]) {
      CleanedNoNewline(segmented[i]);
    }
  }

  /** Normalised text holds no line break, so the sentences the splitter
      finds in it hold none either. */
  lemma SegmentedNoNewline(texts: seq<string>, segment: string -> seq<string>)
    requires KeepsLines(segment)
    ensures AllNoNewline(Segmented(texts, segment))
  {
  }

  /** A successful run writes the joined text of the cleaned documents. */
  lemma CleanCorpusText(records: seq<Record>, segment: string -> seq<string>)
    requires CleanCorpus(records, segment).Success?
    ensures ExtractTexts(records).Success?
    ensures var docs := CleanEach(Segmented(ExtractTexts(records).value, segment));
      docs.Success? && CleanCorpus(records, segment).value == CorpusText(docs.value)
  {
  }

  /** Every line of the output text is either empty (the gap between two
      documents, or a document with no sentence left) or a kept sentence:
      fewer than 15 copies of each special character and more than two
      tokens. */
  lemma OutputLinesAreKept(records: seq<Record>, segment: string -> seq<string>)
    requires KeepsLines(segment)
    requires CleanCorpus(records, segment).Success?
    ensures var lines := SplitOn(CleanCorpus(records, segment).value, '\n');
      forall k | 0 <= k < |lines| :: lines[k] == "" || IsKeptSentence(lines[k])
  {
    CleanCorpusText(records, segment);
    CleanedLinesAreKept(ExtractTexts(records).value, segment);
  }

  /** The same, from the document texts on. */
  lemma CleanedLinesAreKept(texts: seq<string>, segment: string -> seq<string>)
    requires KeepsLines(segment)
    requires CleanEach(Segmented(texts, segment)).Success?
    ensures var lines := SplitOn(CorpusText(CleanEach(Segmented(texts, segment)).value), '\n');
      forall k | 0 <= k < |lines| :: lines[k] == "" || IsKeptSentence(lines[k])
  {
    var segmented := Segmented(texts, segment);
    var docs := CleanEach(segmented).value;
    SegmentedNoNewline(texts, segment);
    CleanEachNoNewline(segmented);
    CorpusLines(docs);
    DocLinesHold(IsKeptSentence, docs);
  }

  /** Cleaning every document is the fused one-pass cleaning of each. */
  lemma CleanEachIsFused(segmented: seq<seq<string>>)
    requires CleanEach(segmented).Success?
    ensures CleanEach(segmented).value == Map(CleanAll, segmented)
  {
    var docs := CleanEach(segmented).value;
    forall i | 0 <= i < |docs| ensures docs[i] == CleanAll(segmented[i]) {
      assert FirstBlank(segmented[i]) == |segmented[i]|;
      CleaningFusion(segmented[i]);
    }
  }

  /** The text a successful run writes, read back line by line: for each
      document in order, every sentence `CleanSentence` keeps, in its input
      order and cleaned as it cleans it, with one empty line between
      documents. Every kept sentence is there and nothing else is. */
  lemma OutputLines(records: seq<Record>, segment: string -> seq<string>)
    requires KeepsLines(segment)
    requires CleanCorpus(records, segment).Success?
    ensures SplitOn(CleanCorpus(records, segment).value, '\n')
      == DocLines(Map(CleanAll, Segmented(ExtractTexts(records).value, segment)))
  {
    CleanCorpusText(records, segment);
    var texts := ExtractTexts(records).value;
    var segmented := Segmented(texts, segment);
    SegmentedNoNewline(texts, segment);
    CleanEachNoNewline(segmented);
    CorpusLines(CleanEach(segmented).value);
    CleanEachIsFused(segmented);
  }
}

=== FILE: joiner.dfy ===
/**
 Turning cleaned documents into the output text: the sentences of one
 document are joined by line breaks (`sent_convert`), and the documents by
 blank lines.
 */
module Joiner {
  import opened Lists
  import opened PyStrings

  /** No sentence holds a line break. */
  predicate NoNewline(sents: seq<string>) {
    forall k | 0 <= k < |sents| :: '\n' !in sents[k]
  }

  /** `sent_convert`: one line per sentence. Splitting the result at line
      breaks gives the sentences back when none of them holds one; the empty
      list gives the empty text and one sentence gives itself. */
  function SentConvert(sents: seq<string>): (r: string)
    ensures |sents| == 0 ==> r == ""
    ensures |sents| == 1 ==> r == sents[0]
    ensures |sents| > 0 && NoNewline(sents) ==> SplitOn(r, '\n') == sents
  {
    var r := Join("\n", sents);
    assert |sents| > 0 && NoNewline(sents) ==> SplitOn(r, '\n') == sents by {
      if |sents| > 0 && NoNewline(sents) {
        SplitJoinRoundTrip(sents, '\n');
      }
    }
    r
  }

  /** `"\n\n".join(texts)`: one blank line between neighbouring documents. */
  function JoinDocuments(texts: seq<string>): string {
    Join("\n\n", texts)
  }

  /** The whole output text. */
  function CorpusText(docs: seq<seq<string>>): string {
    JoinDocuments(Map(SentConvert, docs))
  }

  /** The lines a document contributes: its sentences, or one empty line
      when it has none. */
  function Lines(sents: seq<string>): seq<string> {
    if |sents| == 0 then [""] else sents
  }

  /** The lines of the output text: each document's lines, with an empty
      line between neighbouring documents. No documents give one empty
      line, as `"".split("\n")` does. */
  function DocLines(docs: seq<seq<string>>): seq<string>
  {
    if |docs| == 0 then [""]
    else if |docs| == 1 then Lines(docs[0])
    else Lines(docs[0]) + [""] + DocLines(docs[1..])
  }

  /** When every sentence of every document satisfies `p`, every line of
      the output text is empty or satisfies `p`. */
  lemma {:induction false} DocLinesHold(p: string -> bool, docs: seq<seq<string>>)
    requires forall i, j | 0 <= i < |docs| && 0 <= j < |docs[i]| :: p(docs[i][j])
    ensures forall k | 0 <= k < |DocLines(docs)| :: DocLines(docs)[k] == "" || p(DocLines(docs)[k])
    decreases |docs|
  {
    if |docs| > 1 {
      var tail := docs[1..];
      assert forall i | 0 <= i < |tail| :: tail[i] == docs[i + 1];
      DocLinesHold(p, tail);
      var head := Lines(docs[0]);
      var lines := DocLines(docs);
      assert lines == head + [""] + DocLines(tail);
      forall k | 0 <= k < |lines| ensures lines[k] == "" || p(lines[k]) {
        if k > |head| {
          assert lines[k] == DocLines(tail)[k - |head| - 1];
        }
      }
    }
  }

  /** No sentence of any document holds a line break. */
  predicate AllNoNewline(docs: seq<seq<string>>) {
    forall i | 0 <= i < |docs| :: NoNewline(docs[i])
  }

  /** A document's text splits back into its lines. */
  lemma DocumentLines(sents: seq<string>)
    requires NoNewline(sents)
    ensures SplitOn(SentConvert(sents), '\n') == Lines(sents)
  {
  }

  /** A blank line between two texts splits into one empty line between
      their pieces. */
  lemma SplitAtBlankLine(a: string, b: string)
    ensures SplitOn(a + "\n\n" + b, '\n') == SplitOn(a, '\n') + [""] + SplitOn(b, '\n')
  {
    assert a + "\n\n" + b == a + ['\n'] + ([] + ['\n'] + b);
    SplitOnConcat(a, [] + ['\n'] + b, '\n');
    SplitOnConcat([], b, '\n');
  }

  /** Splitting the output text at line breaks gives every document's
      sentences in order, documents separated by one empty line, provided
      no sentence holds a line break. */
  lemma {:induction false} CorpusLines(docs: seq<seq<string>>)
    requires AllNoNewline(docs)
    ensures SplitOn(CorpusText(docs), '\n') == DocLines(docs)
    decreases |docs|
  {
    if |docs| > 0 {
      var texts := Map(SentConvert, docs);
      DocumentLines(docs[0]);
      if |docs| > 1 {
        var tail := docs[1..];
        assert AllNoNewline(tail) by {
          forall i | 0 <= i < |tail| ensures NoNewline(tail[i]) {
            assert tail[i] == docs[i + 1];
          }
        }
        assert texts[1..] == Map(SentConvert, tail);
        assert CorpusText(docs) == texts[0] + "\n\n" + CorpusText(tail);
        CorpusLines(tail);
        SplitAtBlankLine(texts[0], CorpusText(tail));
      }
    }
  }

  /** Two documents of two and one sentences. */
  lemma CorpusTextExample(a: string, b: string, c: string)
    ensures CorpusText([[a, b], [c]]) == a + "\n" + b + "\n\n" + c
  {
    assert [a, b][1..] == [b];
    assert Join("\n", [b]) == b;
    assert SentConvert([a, b]) == a + "\n" + b;
    assert SentConvert([c]) == c;
    assert [[a, b], [c]][1..] == [[c]];
    assert Map(SentConvert, [[a, b], [c]]) == [a + "\n" + b, c];
    assert [a + "\n" + b, c][1..] == [c];
    assert JoinDocuments([c]) == c;
  }
}

=== FILE: lists.dfy ===
/** Mapping a partial step over a list and keeping what it yields. */
module Lists {
  import opened Wrappers

  /** The kept value, if any, as a list. */
  function Kept<U>(o: Option<U>): seq<U> {
    match o
    case Some(c) => [c]
    case None => []
  }

  /** The values `f` yields over `xs`, in order. */
  function FilterMap<T, U>(f: T -> Option<U>, xs: seq<T>): seq<U>
  {
    if |xs| == 0 then []
    else Kept(f(xs[0])) + FilterMap(f, xs[1..])
  }

  /** `f` applied to every element, in order. */
  function Map<T, U>(f: T -> U, xs: seq<T>): (r: seq<U>)
    ensures |r| == |xs|
    ensures forall i | 0 <= i < |xs| :: r[i] == f(xs[i])
  {
    if |xs| == 0 then [] else [f(xs[0])] + Map(f, xs[1..])
  }

  /** Every position, one further on. */
  function Shift(idx: seq<nat>): (r: seq<nat>)
    ensures |r| == |idx|
    ensures forall k | 0 <= k < |idx| :: r[k] == idx[k] + 1
  {
    if |idx| == 0 then [] else [idx[0] + 1] + Shift(idx[1..])
  }

  /** `out[k]` is what `f` makes of the element at position `idx[k]`. */
  ghost predicate Yields<T, U>(f: T -> Option<U>, xs: seq<T>, idx: seq<nat>, out: seq<U>) {
    && |idx| == |out|
    && (forall k | 0 <= k < |idx| :: idx[k] < |xs| && f(xs[idx[k]]) == Some(out[k]))
  }
  /** Strictly increasing positions. */
  predicate Increasing(idx: seq<nat>) {
    forall k, l | 0 <= k < l < |idx| :: idx[k] < idx[l]
  }
  /** Every element that `f` keeps has its position in `idx`. */
  ghost predicate Covers<T, U>(f: T -> Option<U>, xs: seq<T>, idx: seq<nat>) {
    forall i | 0 <= i < |xs| :: f(xs[i]).Some? ==> i in idx
  }
  /** Positions `idx` select, in increasing order, exactly the elements of
      `xs` that `f` keeps, and `out` holds what `f` makes of them. */
  ghost predicate SelectsKept<T, U>(f: T -> Option<U>, xs: seq<T>, idx: seq<nat>, out: seq<U>) {
    Yields(f, xs, idx, out) && Increasing(idx) && Covers(f, xs, idx)
  }

  lemma YieldsCons<T, U>(f: T -> Option<U>, xs: seq<T>, idx: seq<nat>, out: seq<U>)
    requires |xs| > 0 && Yields(f, xs[1..], idx, out)
    ensures Yields(f, xs, Shift(idx), out)
    ensures f(xs[0]).Some? ==> Yields(f, xs, [0] + Shift(idx), [f(xs[0]).value] + out)
  {
    var s := Shift(idx);
    assert forall k | 0 <= k < |idx| :: xs[s[k]] == xs[1..][idx[k]];
    if f(xs[0]).Some? {
      var o := [f(xs[0]).value] + out;
      var t := [0] + s;
      assert forall k | 1 <= k < |t| :: t[k] == s[k - 1] && o[k] == out[k - 1];
    }
  }

  lemma IncreasingCons(idx: seq<nat>)
    requires Increasing(idx)
    ensures Increasing(Shift(idx)) && Increasing([0] + Shift(idx))
  {
    var s := Shift(idx);
    assert forall k | 1 <= k < |s| + 1 :: ([0] + s)[k] == s[k - 1];
  }

  lemma CoversCons<T, U>(f: T -> Option<U>, xs: seq<T>, idx: seq<nat>)
    requires |xs| > 0 && Covers(f, xs[1..], idx)
    ensures f(xs[0]).None? ==> Covers(f, xs, Shift(idx))
    ensures Covers(f, xs, [0] + Shift(idx))
  {
    var s := Shift(idx);
    forall i | 1 <= i < |xs| && f(xs[i]).Some?
      ensures i in s
    {
      assert xs[1..][i - 1] == xs[i];
      var k :| 0 <= k < |idx| && idx[k] == i - 1;
      assert s[k] == i;
    }
    assert forall i | 1 <= i < |xs| && f(xs[i]).Some? :: i in [0] + s;
  }

  /** `FilterMap` keeps order and drops only what `f` drops. */
  lemma {:induction false} FilterMapSelectsKept<T, U>(f: T -> Option<U>, xs: seq<T>) returns (idx: seq<nat>)
    ensures SelectsKept(f, xs, idx, FilterMap(f, xs))
    decreases |xs|
  {
    if |xs| == 0 {
      idx := [];
    } else {
      var restIdx := FilterMapSelectsKept(f, xs[1..]);
      YieldsCons(f, xs, restIdx, FilterMap(f, xs[1..]));
      IncreasingCons(restIdx);
      CoversCons(f, xs, restIdx);
      idx := if f(xs[0]).Some? then [0] + Shift(restIdx) else Shift(restIdx);
    }
  }

  /** One element that `f` keeps is enough for `FilterMap` to be non-empty. */
  lemma FilterMapNonEmpty<T, U>(f: T -> Option<U>, xs: seq<T>, i: nat)
    requires i < |xs| && f(xs[i]).Some?
    ensures |FilterMap(f, xs)| > 0
  {
    var idx := FilterMapSelectsKept(f, xs);
    assert i in idx;
  }

  /** `FilterMap` distributes over concatenation. */
  lemma {:induction false} FilterMapConcat<T, U>(f: T -> Option<U>, a: seq<T>, b: seq<T>)
    ensures FilterMap(f, a + b) == FilterMap(f, a) + FilterMap(f, b)
    decreases |a|
  {
    if |a| > 0 {
      assert (a + b)[0] == a[0];
      assert (a + b)[1..] == a[1..] + b;
      FilterMapConcat(f, a[1..], b);
    } else {
      assert a + b == b;
    }
  }

  /** Where and why a `TryMap` stopped. */
  datatype Stopped<E> = Stopped(at: nat, error: E)

  /** Applies `f` to every element in order and stops at the first failure,
      as a loop that raises does. */
  function TryMap<T, U, E>(f: T -> Result<U, E>, xs: seq<T>): (r: Result<seq<U>, Stopped<E>>)
    ensures r.Success? <==> forall i | 0 <= i < |xs| :: f(xs[i]).Success?
    ensures r.Failure? ==>
      && r.error.at < |xs|
      && f(xs[r.error.at]) == Failure(r.error.error)
      && forall j | 0 <= j < r.error.at :: f(xs[j]).Success?
    ensures r.Success? ==>
      && |r.value| == |xs|
      && forall i | 0 <= i < |xs| :: f(xs[i]) == Success(r.value[i])
  {
    if |xs| == 0 then Success([])
    else
      match f(xs[0])
      case Failure(e) => Failure(Stopped(0, e))
      case Success(y) =>
        match TryMap(f, xs[1..])
        case Failure(s) =>
          assert forall j | 0 < j <= s.at :: xs[j] == xs[1..][j - 1];
          Failure(Stopped(s.at + 1, s.error))
        case Success(ys) =>
          assert forall i | 0 < i < |xs| :: xs[i] == xs[1..][i - 1];
          Success([y] + ys)
  }
}

=== FILE: normalize.dfy ===
/**
 The per-document normalisation applied before segmentation: every run of
 whitespace becomes one space, non-ASCII code points are dropped, and the
 text is lower-cased, in that order.
 */
module Normalize {
  import opened PyStrings

  /** Every code point is below 128. */
  predicate IsAscii(s: string) {
    forall i | 0 <= i < |s| :: s[i] as int < 128
  }

  predicate IsUpper(c: char) {
    'A' <= c <= 'Z'
  }

  /** The only whitespace is the plain space. */
  predicate PlainSpaces(s: string) {
    forall i | 0 <= i < |s| :: IsSpace(s[i]) ==> s[i] == ' '
  }

  /** Plain spaces only, and never two in a row. */
  predicate Collapsed(s: string) {
    && PlainSpaces(s)
    && (forall i | 0 < i < |s| :: IsSpace(s[i - 1]) ==> !IsSpace(s[i]))
  }

  /** One space when `s` starts with whitespace, nothing otherwise. */
  function Lead(s: string): string {
    if |s| > 0 && IsSpace(s[0]) then " " else ""
  }

  /** `re.sub(r'\s+', ' ', s)`: each maximal whitespace run becomes one space. */
  function CollapseSpaces(s: string): (r: string)
    ensures |r| <= |s|
    ensures |r| == 0 <==> |s| == 0
    ensures |s| > 0 ==> (IsSpace(r[0]) <==> IsSpace(s[0]))
    ensures |s| > 0 ==> (IsSpace(r[|r| - 1]) <==> IsSpace(s[|s| - 1]))
    decreases |s|
  {
    if IsBlank(s) then Lead(s)
    else Lead(s) + (FirstWord(s) + CollapseSpaces(AfterFirstWord(s)))
  }

  /** `.encode('ascii', 'ignore').decode()`: drop every code point >= 128. */
  function StripNonAscii(s: string): (r: string)
    ensures IsAscii(r)
    ensures |r| <= |s|
    ensures IsAscii(s) ==> r == s
    decreases |s|
  {
    if |s| == 0 then ""
    else (if s[0] as int < 128 then [s[0]] else []) + StripNonAscii(s[1..])
  }

  /** `c.lower()` for an ASCII character. */
  function LowerChar(c: char): char {
    if IsUpper(c) then (c as int + 32) as char else c
  }

  /** `s.lower()` on the ASCII strings it is applied to here. */
  function Lower(s: string): (r: string)
    ensures |r| == |s|
    ensures forall i | 0 <= i < |r| :: !IsUpper(r[i])
    ensures forall i | 0 <= i < |r| :: !IsUpper(s[i]) ==> r[i] == s[i]
    ensures forall i | 0 <= i < |r| :: IsUpper(s[i]) ==> r[i] as int == s[i] as int + 32
    ensures forall i | 0 <= i < |r| :: IsSpace(r[i]) <==> IsSpace(s[i])
    ensures IsAscii(s) ==> IsAscii(r)
  {
    seq(|s|, i requires 0 <= i < |s| => LowerChar(s[i]))
  }

  /** The normalisation of one document text. */
  function NormalizeText(s: string): (r: string)
    ensures IsAscii(r)
    ensures forall i | 0 <= i < |r| :: !IsUpper(r[i])
    ensures |r| <= |s|
    ensures PlainSpaces(r)
    ensures '\n' !in r
  {
    var c := CollapseSpaces(s);
    CollapseIsCollapsed(s);
    var a := StripNonAscii(c);
    StripNonAsciiKeepsSpaces(c);
    Lower(a)
  }

  // ---------------------------------------------------------------------
  // Collapsing whitespace

  /** Two collapsed pieces stay collapsed when glued without a whitespace
      meeting another whitespace at the seam. */
  lemma CollapsedConcat(a: string, b: string)
    requires Collapsed(a) && Collapsed(b)
    requires |a| > 0 && |b| > 0 ==> !(IsSpace(a[|a| - 1]) && IsSpace(b[0]))
    ensures Collapsed(a + b)
  {
    var u := a + b;
    forall i | 0 < i < |u| && IsSpace(u[i - 1])
      ensures !IsSpace(u[i])
    {
      if i > |a| {
        assert u[i - 1] == b[i - 1 - |a|] && u[i] == b[i - |a|];
      } else if i < |a| {
        assert u[i - 1] == a[i - 1] && u[i] == a[i];
      }
    }
  }

  /** The output of collapsing is collapsed. */
  lemma {:induction false} CollapseIsCollapsed(s: string)
    ensures Collapsed(CollapseSpaces(s))
    decreases |s|
  {
    if !IsBlank(s) {
      var rest := CollapseSpaces(AfterFirstWord(s));
      CollapseIsCollapsed(AfterFirstWord(s));
      WordThenCollapsed(FirstWord(s), rest);
      LeadThenCollapsed(s, FirstWord(s) + rest);
    }
  }

  lemma WordThenCollapsed(w: string, rest: string)
    requires IsWord(w) && Collapsed(rest)
    requires |rest| == 0 || IsSpace(rest[0])
    ensures Collapsed(w + rest) && !IsSpace((w + rest)[0])
  {
    assert Collapsed(w);
    CollapsedConcat(w, rest);
    assert (w + rest)[0] == w[0];
  }

  lemma LeadThenCollapsed(s: string, t: string)
    requires Collapsed(t) && |t| > 0 && !IsSpace(t[0])
    ensures Collapsed(Lead(s) + t)
  {
    CollapsedConcat(Lead(s), t);
  }

  lemma AsciiConcat(a: string, b: string)
    requires IsAscii(a) && IsAscii(b)
    ensures IsAscii(a + b)
  {
    assert forall i | |a| <= i < |a + b| :: (a + b)[i] == b[i - |a|];
  }

  /** Collapsing introduces no code point beyond the plain space. */
  lemma {:induction false} CollapseKeepsAscii(s: string)
    requires IsAscii(s)
    ensures IsAscii(CollapseSpaces(s))
    decreases |s|
  {
    if !IsBlank(s) {
      var after := AfterFirstWord(s);
      SuffixAscii(after, s);
      FirstWordAscii(s);
      CollapseKeepsAscii(after);
      LeadIsAscii(s);
      AsciiPieces(Lead(s), FirstWord(s), CollapseSpaces(after));
    }
  }

  lemma LeadIsAscii(s: string)
    ensures IsAscii(Lead(s))
  {
    if |s| > 0 && IsSpace(s[0]) {
      assert Lead(s)[0] == ' ';
    }
  }

  lemma AsciiPieces(l: string, w: string, c: string)
    requires IsAscii(l) && IsAscii(w) && IsAscii(c)
    ensures IsAscii(l + (w + c))
  {
    AsciiConcat(w, c);
    AsciiConcat(l, w + c);
  }

  lemma SuffixAscii(a: string, b: string)
    requires IsSuffix(a, b) && IsAscii(b)
    ensures IsAscii(a)
  {
    assert forall i | 0 <= i < |a| :: a[i] == b[|b| - |a| + i];
  }

  lemma FirstWordAscii(s: string)
    requires IsAscii(s)
    ensures IsAscii(FirstWord(s))
  {
    var t := TrimStart(s);
    SuffixAscii(t, s);
    var w := FirstWord(s);
    assert forall i | 0 <= i < |w| :: w[i] == t[i];
  }

  /** Collapsed text is left as it is. */
  lemma {:induction false} CollapseKeepsCollapsed(s: string)
    requires Collapsed(s)
    ensures CollapseSpaces(s) == s
    decreases |s|
  {
    LeadOfCollapsed(s);
    if !IsBlank(s) {
      var rest := AfterFirstWord(s);
      CollapsedSuffix(rest, s);
      CollapseKeepsCollapsed(rest);
      FirstWordSplit(s);
    }
  }

  /** Collapsed text starts with at most one space. */
  lemma LeadOfCollapsed(s: string)
    requires Collapsed(s)
    ensures s[..SpaceRun(s)] == Lead(s)
  {
    var k := SpaceRun(s);
    assert |s| > 1 && IsSpace(s[0]) ==> !IsSpace(s[1]);
    assert k == 1 ==> s[0] == ' ';
  }

  lemma CollapsedSuffix(a: string, b: string)
    requires IsSuffix(a, b) && Collapsed(b)
    ensures Collapsed(a)
  {
    assert forall i | 0 <= i < |a| :: a[i] == b[|b| - |a| + i];
  }

  /** Collapsing is the identity exactly on collapsed text. */
  lemma CollapseFixpoint(s: string)
    ensures CollapseSpaces(s) == s <==> Collapsed(s)
  {
    CollapseIsCollapsed(s);
    if Collapsed(s) {
      CollapseKeepsCollapsed(s);
    }
  }

  /** Collapsing whitespace never changes the tokens of `str.split()`. */
  lemma {:induction false} CollapseKeepsWords(s: string)
    ensures Words(CollapseSpaces(s)) == Words(s)
    decreases |s|
  {
    if !IsBlank(s) {
      CollapseKeepsWords(AfterFirstWord(s));
      WordsLeadWord(s, FirstWord(s), CollapseSpaces(AfterFirstWord(s)));
    } else {
      assert IsBlank(Lead(s));
    }
  }

  /** Optional whitespace, a token, then text that is empty or starts with
      whitespace: the token comes first. */
  lemma WordsLeadWord(s: string, w: string, rest: string)
    requires IsWord(w)
    requires |rest| == 0 || IsSpace(rest[0])
    ensures Words(Lead(s) + (w + rest)) == [w] + Words(rest)
  {
    WordsConsWord(w, rest);
    if |Lead(s)| > 0 {
      assert Lead(s) == [' '];
      WordsConsSpace(' ', w + rest);
    } else {
      assert Lead(s) + (w + rest) == w + rest;
    }
  }

  // ---------------------------------------------------------------------
  // Dropping non-ASCII code points, lower-casing

  /** Dropping non-ASCII code points keeps only the plain space as whitespace
      when that was the only whitespace before. */
  lemma {:induction false} StripNonAsciiKeepsSpaces(s: string)
    requires PlainSpaces(s)
    ensures PlainSpaces(StripNonAscii(s))
    decreases |s|
  {
    if |s| > 0 {
      var head: string := if s[0] as int < 128 then [s[0]] else [];
      var tail := StripNonAscii(s[1..]);
      assert StripNonAscii(s) == head + tail;
      assert forall i | 0 <= i < |s| - 1 :: s[1..][i] == s[i + 1];
      StripNonAsciiKeepsSpaces(s[1..]);
      forall i | 0 <= i < |head + tail| && IsSpace((head + tail)[i])
        ensures (head + tail)[i] == ' '
      {
        if i < |head| {
          assert (head + tail)[i] == s[0];
        } else {
          assert (head + tail)[i] == tail[i - |head|];
        }
      }
    }
  }

  /** Dropping non-ASCII code points distributes over concatenation. */
  lemma {:induction false} StripNonAsciiConcat(a: string, b: string)
    ensures StripNonAscii(a + b) == StripNonAscii(a) + StripNonAscii(b)
    decreases |a|
  {
    if |a| > 0 {
      assert (a + b)[0] == a[0];
      assert (a + b)[1..] == a[1..] + b;
      StripNonAsciiConcat(a[1..], b);
    } else {
      assert a + b == b;
    }
  }

  /** Lower-casing twice is lower-casing once. */
  lemma LowerIdempotent(s: string)
    ensures Lower(Lower(s)) == Lower(s)
  {
  }

  // ---------------------------------------------------------------------
  // The whole normalisation

  /** On ASCII input the normalisation is idempotent. */
  lemma NormalizeIdempotentOnAscii(s: string)
    requires IsAscii(s)
    ensures NormalizeText(NormalizeText(s)) == NormalizeText(s)
  {
    var c := CollapseSpaces(s);
    CollapseKeepsAscii(s);
    CollapseIsCollapsed(s);
    assert StripNonAscii(c) == c;
    var y := Lower(c);
    assert NormalizeText(s) == y;
    assert Collapsed(y);
    CollapseFixpoint(y);
    assert StripNonAscii(y) == y;
    LowerIdempotent(c);
  }

  /** On non-ASCII input it is not: a non-ASCII code point between two
      spaces (`" \U{E9} "`, say) is dropped and leaves two spaces in a row,
      which a second pass collapses into one. */
  lemma NormalizeNotIdempotent(x: char)
    requires x as int >= 128 && !IsSpace(x)
    ensures NormalizeText([' ', x, ' ']) == "  "
    ensures NormalizeText(NormalizeText([' ', x, ' '])) == " "
  {
    NormalizePadded(x);
    NormalizeTwoSpaces();
  }

  lemma NormalizePadded(x: char)
    requires x as int >= 128 && !IsSpace(x)
    ensures NormalizeText([' ', x, ' ']) == "  "
  {
    PaddedIsCollapsed(x);
    PaddedStrip(x);
    assert Lower("  ") == "  ";
  }

  lemma PaddedIsCollapsed(x: char)
    requires !IsSpace(x)
    ensures CollapseSpaces([' ', x, ' ']) == [' ', x, ' ']
  {
    assert Collapsed([' ', x, ' ']);
    CollapseKeepsCollapsed([' ', x, ' ']);
  }

  lemma PaddedStrip(x: char)
    requires x as int >= 128
    ensures StripNonAscii([' ', x, ' ']) == "  "
  {
    var s := [' ', x, ' '];
    assert s[1..] == [x, ' '] && s[1..][1..] == [' '];
    assert StripNonAscii([' ']) == " ";
    assert StripNonAscii([x, ' ']) == " ";
  }

  lemma NormalizeTwoSpaces()
    ensures NormalizeText("  ") == " "
  {
    assert IsBlank("  ");
    assert CollapseSpaces("  ") == " ";
    assert Lower(" ") == " ";
  }
}

=== FILE: pystrings.dfy ===
/**
 The Python string primitives the cleaning script relies on, over
 `seq<char>`: `str.isspace`, `str.isdigit`, `str.split()`,
 `str.split(maxsplit=1)`, `str.join` and `str.split(sep)` for a
 one-character separator.
 */
module PyStrings {

  /** Python's `str.isspace` (and the regex class `\s`): the 29 code points
      U+0009..U+000D, U+001C..U+001F, U+0020, U+0085, U+00A0, U+1680,
      U+2000..U+200A, U+2028, U+2029, U+202F, U+205F and U+3000. */
  predicate IsSpace(c: char) {
    var n := c as int;
    || 0x09 <= n <= 0x0D
    || 0x1C <= n <= 0x20
    || n == 0x85 || n == 0xA0 || n == 0x1680
    || 0x2000 <= n <= 0x200A
    || n == 0x2028 || n == 0x2029 || n == 0x202F || n == 0x205F || n == 0x3000
  }

  /** Where Python's whitespace set differs from a naive one: the separators
      U+001C..U+001F, NEL, no-break and ideographic spaces are whitespace;
      the zero-width space and the byte-order mark are not. */
  lemma SpaceSet()
    ensures IsSpace(' ') && IsSpace('\t') && IsSpace('\n') && IsSpace('\r')
    ensures IsSpace('\U{0B}') && IsSpace('\U{0C}') && IsSpace('\U{1C}') && IsSpace('\U{1F}')
    ensures IsSpace('\U{85}') && IsSpace('\U{A0}') && IsSpace('\U{2028}') && IsSpace('\U{3000}')
    ensures !IsSpace('\U{200B}') && !IsSpace('\U{FEFF}') && !IsSpace('\U{0}') && !IsSpace('a')
  {
  }

  /** A decimal digit, restricted to ASCII. */
  predicate IsDigit(c: char) {
    '0' <= c <= '9'
  }

  /** Python's `w.isdigit()`: non-empty and all digits. */
  predicate IsDigits(w: string) {
    |w| > 0 && forall i | 0 <= i < |w| :: IsDigit(w[i])
  }

  /** `isdigit` holds of a non-empty run of digits only: not of the empty
      string, a sign, a decimal point or a mixed token. */
  lemma DigitTokens()
    ensures IsDigits("7") && IsDigits("2019")
    ensures !IsDigits("") && !IsDigits("-1") && !IsDigits("1.5") && !IsDigits("7a")
  {
    assert !IsDigit("-1"[0]) && !IsDigit("1.5"[1]) && !IsDigit("7a"[1]);
  }

  /** Nothing but whitespace (the empty string included). */
  predicate IsBlank(s: string) {
    forall i | 0 <= i < |s| :: IsSpace(s[i])
  }

  /** A token of `str.split()`: non-empty and free of whitespace. */
  predicate IsWord(w: string) {
    |w| > 0 && forall i | 0 <= i < |w| :: !IsSpace(w[i])
  }

  /** `a` is a suffix of `b`. */
  predicate IsSuffix(a: string, b: string) {
    |a| <= |b| && b[|b| - |a|..] == a
  }

  /** Length of the maximal whitespace prefix. */
  function SpaceRun(s: string): (n: nat)
    ensures n <= |s|
    ensures forall i | 0 <= i < n :: IsSpace(s[i])
    ensures n < |s| ==> !IsSpace(s[n])
  {
    if |s| > 0 && IsSpace(s[0]) then 1 + SpaceRun(s[1..]) else 0
  }

  /** Length of the maximal whitespace-free prefix. */
  function WordRun(s: string): (n: nat)
    ensures n <= |s|
    ensures forall i | 0 <= i < n :: !IsSpace(s[i])
    ensures n < |s| ==> IsSpace(s[n])
  {
    if |s| > 0 && !IsSpace(s[0]) then 1 + WordRun(s[1..]) else 0
  }

  /** `s.lstrip()`: the suffix starting at the first non-whitespace character. */
  function TrimStart(s: string): (r: string)
    ensures IsSuffix(r, s)
    ensures |r| == 0 <==> IsBlank(s)
    ensures |r| > 0 ==> !IsSpace(r[0])
  {
    s[SpaceRun(s)..]
  }

  /** The first token of `s` (empty when `s` is blank). */
  function FirstWord(s: string): (w: string)
    ensures !IsBlank(s) ==> IsWord(w)
  {
    var t := TrimStart(s);
    t[..WordRun(t)]
  }

  /** What follows the first token: empty, or starting with whitespace. */
  function AfterFirstWord(s: string): (r: string)
    ensures IsSuffix(r, s)
    ensures !IsBlank(s) ==> |r| < |s|
    ensures |r| > 0 ==> IsSpace(r[0])
  {
    var t := TrimStart(s);
    assert IsSuffix(t[WordRun(t)..], t);
    SuffixTransitive(t[WordRun(t)..], t, s);
    t[WordRun(t)..]
  }

  /** `s.split()`: the maximal whitespace-free runs of `s`, in order. */
  function Words(s: string): (r: seq<string>)
    ensures |r| == 0 <==> IsBlank(s)
    decreases |s|
  {
    if IsBlank(s) then []
    else
      var w := FirstWord(s);
      var rest := Words(AfterFirstWord(s));
      [w] + rest
  }

  /** `s.split(maxsplit=1)`: no element for a blank string; otherwise the
      first token, followed by the rest of the string from the next
      non-whitespace character on (trailing whitespace kept) when there is one. */
  function SplitFirst(s: string): (r: seq<string>)
  {
    if IsBlank(s) then []
    else
      var rest := TrimStart(AfterFirstWord(s));
      if |rest| == 0 then [FirstWord(s)] else [FirstWord(s), rest]
  }

  // ---------------------------------------------------------------------
  // Lemmas

  lemma SuffixTransitive(a: string, b: string, c: string)
    requires IsSuffix(a, b) && IsSuffix(b, c)
    ensures IsSuffix(a, c)
  {
    assert c[|c| - |a|..] == c[|c| - |b|..][|b| - |a|..];
  }

  /** A string that holds a token is its leading whitespace, its first
      token and what follows, in that order. */
  lemma FirstWordSplit(s: string)
    requires !IsBlank(s)
    ensures s == s[..SpaceRun(s)] + (FirstWord(s) + AfterFirstWord(s))
  {
    var t := TrimStart(s);
    assert t == FirstWord(s) + AfterFirstWord(s);
    assert s == s[..SpaceRun(s)] + t;
  }

  /** Every token is non-empty and free of whitespace. */
  lemma {:induction false} WordsAreWords(s: string)
    ensures forall k | 0 <= k < |Words(s)| :: IsWord(Words(s)[k])
    decreases |s|
  {
    if !IsBlank(s) {
      var rest := Words(AfterFirstWord(s));
      var ws := Words(s);
      assert ws == [FirstWord(s)] + rest;
      WordsAreWords(AfterFirstWord(s));
      forall k | 0 <= k < |ws| ensures IsWord(ws[k]) {
        if k > 0 {
          assert ws[k] == rest[k - 1];
        }
      }
    }
  }

  /** Leading whitespace does not change the tokens. */
  lemma WordsTrimStart(s: string)
    ensures Words(TrimStart(s)) == Words(s)
  {
    var t := TrimStart(s);
    assert SpaceRun(t) == 0;
    assert TrimStart(t) == t;
  }

  /** `split(maxsplit=1)` agrees with `split()`: it yields the first token and
      a remainder whose tokens are exactly the remaining tokens; it has two
      elements exactly when there are at least two tokens, and the remainder
      is a suffix of the sentence that starts on a token. */
  lemma SplitFirstAgreesWithWords(s: string)
    ensures var r := SplitFirst(s); var w := Words(s);
      && |r| <= 2
      && (|r| == 0 <==> |w| == 0)
      && (|r| == 2 <==> |w| >= 2)
      && (|r| > 0 ==> r[0] == w[0])
      && (|r| == 2 ==> Words(r[1]) == w[1..] && IsSuffix(r[1], s) && !IsSpace(r[1][0]))
  {
    if !IsBlank(s) {
      var after := AfterFirstWord(s);
      var rest := TrimStart(after);
      WordsTrimStart(after);
      if |rest| > 0 {
        SuffixTransitive(rest, after, s);
      }
    }
  }

  /** A token followed by text that is empty or starts with whitespace:
      that token is the first one and the text is what follows it. */
  lemma FirstWordOfConcat(w: string, x: string)
    requires IsWord(w)
    requires |x| == 0 || IsSpace(x[0])
    ensures !IsBlank(w + x)
    ensures FirstWord(w + x) == w && AfterFirstWord(w + x) == x
  {
    var s := w + x;
    assert SpaceRun(s) == 0 by { assert s[0] == w[0]; }
    assert TrimStart(s) == s;
    assert forall i | 0 <= i < |w| :: s[i] == w[i];
    assert |x| > 0 ==> s[|w|] == x[0];
    var n := WordRun(s);
    assert n == |w|;
    assert s[..n] == w && s[n..] == x;
  }

  /** Gluing a token in front of text that is empty or starts with
      whitespace adds exactly that token. */
  lemma WordsConsWord(w: string, x: string)
    requires IsWord(w)
    requires |x| == 0 || IsSpace(x[0])
    ensures Words(w + x) == [w] + Words(x)
  {
    FirstWordOfConcat(w, x);
  }

  /** Whitespace in front of text adds no token. */
  lemma WordsConsSpace(c: char, x: string)
    requires IsSpace(c)
    ensures Words([c] + x) == Words(x)
  {
    var s := [c] + x;
    assert s[1..] == x;
    assert SpaceRun(s) == 1 + SpaceRun(x);
    assert TrimStart(s) == TrimStart(x);
  }

  // ---------------------------------------------------------------------
  // `sep.join(parts)` and `s.split(c)`

  /** Sum of the lengths of `parts`. */
  function TotalLength(parts: seq<string>): nat
  {
    if |parts| == 0 then 0 else |parts[0]| + TotalLength(parts[1..])
  }

  /** `sep.join(parts)`: the parts with one `sep` between neighbours. */
  function Join(sep: string, parts: seq<string>): (r: string)
    ensures |parts| == 0 ==> r == ""
    ensures |parts| == 1 ==> r == parts[0]
    ensures |parts| > 0 ==> parts[0] <= r
    decreases |parts|
  {
    if |parts| == 0 then ""
    else if |parts| == 1 then parts[0]
    else parts[0] + sep + Join(sep, parts[1..])
  }

  /** The joined text holds the parts' characters plus one separator per gap. */
  lemma {:induction false} JoinLength(sep: string, parts: seq<string>)
    requires |parts| > 0
    ensures |Join(sep, parts)| == TotalLength(parts) + (|parts| - 1) * |sep|
    decreases |parts|
  {
    if |parts| > 1 {
      JoinLength(sep, parts[1..]);
    }
  }

  /** `s.split(c)` for a one-character separator `c`: the pieces between
      occurrences of `c`; the empty string gives one empty piece. */
  function SplitOn(s: string, c: char): (r: seq<string>)
    ensures |r| >= 1
    ensures forall k | 0 <= k < |r| :: c !in r[k]
    decreases |s|
  {
    if |s| == 0 then [""]
    else
      var r := SplitOn(s[1..], c);
      if s[0] == c then [""] + r
      else [[s[0]] + r[0]] + r[1..]
  }

  /** A string without the separator is its own single piece. */
  lemma {:induction false} SplitOnNoSeparator(s: string, c: char)
    requires c !in s
    ensures SplitOn(s, c) == [s]
    decreases |s|
  {
    if |s| > 0 {
      assert c !in s[1..] by { assert forall i | 0 <= i < |s| - 1 :: s[1..][i] == s[i + 1]; }
      SplitOnNoSeparator(s[1..], c);
      assert [s[0]] + s[1..] == s;
    }
  }

  /** Splitting distributes over one occurrence of the separator. */
  lemma {:induction false} SplitOnConcat(a: string, b: string, c: char)
    ensures SplitOn(a + [c] + b, c) == SplitOn(a, c) + SplitOn(b, c)
    decreases |a|
  {
    var s := a + [c] + b;
    if |a| == 0 {
      assert s[1..] == b;
    } else {
      assert s[1..] == a[1..] + [c] + b;
      SplitOnConcat(a[1..], b, c);
    }
  }

  /** Joining with a one-character separator that no part contains, then
      splitting on it, gives back the parts (for a non-empty list; `[]`
      joins to `""`, which splits to `[""]`). */
  lemma {:induction false} SplitJoinRoundTrip(parts: seq<string>, c: char)
    requires |parts| >= 1
    requires forall k | 0 <= k < |parts| :: c !in parts[k]
    ensures SplitOn(Join([c], parts), c) == parts
    decreases |parts|
  {
    SplitOnNoSeparator(parts[0], c);
    if |parts| > 1 {
      SplitJoinRoundTrip(parts[1..], c);
      SplitOnConcat(parts[0], Join([c], parts[1..]), c);
      assert [parts[0]] + parts[1..] == parts;
    }
  }

  /** A token, a space, then any text: the token comes first. */
  lemma WordsConsWordSpace(w: string, x: string)
    requires IsWord(w)
    ensures Words(w + " " + x) == [w] + Words(x)
  {
    assert w + " " + x == w + ([' '] + x);
    WordsConsSpace(' ', x);
    WordsConsWord(w, [' '] + x);
  }

  /** Tokens joined by single spaces split back into the same tokens. */
  lemma {:induction false} WordsJoinRoundTrip(ws: seq<string>)
    requires forall k | 0 <= k < |ws| :: IsWord(ws[k])
    ensures Words(Join(" ", ws)) == ws
    decreases |ws|
  {
    if |ws| == 1 {
      WordsConsWord(ws[0], "");
      assert ws[0] + "" == ws[0];
    } else if |ws| > 1 {
      var rest := ws[1..];
      assert [ws[0]] + rest == ws;
      assert Join(" ", ws) == ws[0] + " " + Join(" ", rest);
      assert forall k | 0 <= k < |rest| :: IsWord(rest[k]) by {
        forall k | 0 <= k < |rest| ensures IsWord(rest[k]) {
          assert rest[k] == ws[k + 1];
        }
      }
      WordsJoinRoundTrip(rest);
      WordsConsWordSpace(ws[0], Join(" ", rest));
    }
  }
}

=== FILE: sentence_filter.dfy ===
/**
 The sentence cleaner `sent_cleaning`: four passes over the sentences of one
 document, in this order:
   1. a leading all-digit token is removed (with the whitespace after it);
   2. when the sentence starts with a special character, its whole first
      token is removed (with the whitespace after it);
   3. sentences holding 15 or more copies of any one special character are
      dropped;
   4. sentences with 2 or fewer whitespace-separated tokens are dropped.
 Steps 1 and 2 only act when the sentence has a second token. Step 1 reads
 the first token of every sentence, which raises on a blank sentence; the
 whole call then fails.
 */
module SentenceFilter {
  import opened Wrappers
  import opened PyStrings
  import opened Lists

  /** The special characters: 44 distinct code points. */
  const SpecChars: seq<char> := [
    ',', '?', ';', '.', ':', '/', '=', '+', '%', '`', '\U{A8}', '^', '*', '$',
    '\U{20AC}', '-', '_', '(', ')', '\U{B0}', '!', '\U{A7}', '\'', '\"', '&',
    '@', '#', '~', '\U{AE}', '\U{2020}', '\U{BA}', '\U{3C0}', '\U{2021}',
    '\U{AC}', '\U{2248}', '\U{A9}', '\U{25CA}', '\U{221E}', '\U{B5}',
    '\U{2026}', '\U{F7}', '\U{2260}', '<', '>']

  /** A sentence is noisy from this many copies of one special character. */
  const NoiseLimit: nat := 15

  /** A sentence needs more than this many tokens to be kept. */
  const MinWords: nat := 2

  /** Why the cleaner raised: the sentence at `index` is blank, so it has
      no first token to look at. */
  datatype CleanError = BlankSentence(index: nat)

  /** `s.count(c)`: the occurrences of `c` in `s`. */
  function Count(s: string, c: char): nat
  {
    if |s| == 0 then 0 else (if s[0] == c then 1 else 0) + Count(s[1..], c)
  }

  /** `max([s.count(c) for c in cs])`, for a non-empty `cs`. */
  function MaxCount(s: string, cs: seq<char>): (m: nat)
    requires |cs| > 0
    ensures forall j | 0 <= j < |cs| :: Count(s, cs[j]) <= m
    ensures exists j | 0 <= j < |cs| :: Count(s, cs[j]) == m
  {
    if |cs| == 1 then Count(s, cs[0])
    else
      var here := Count(s, cs[0]);
      var there := MaxCount(s, cs[1..]);
      assert forall j | 1 <= j < |cs| :: cs[j] == cs[1..][j - 1];
      if here >= there then here else there
  }

  /** Step 3 drops the sentence. */
  predicate IsNoisy(s: string) {
    MaxCount(s, SpecChars) >= NoiseLimit
  }

  /** Step 3 keeps the sentence. */
  predicate IsQuiet(s: string) {
    !IsNoisy(s)
  }

  /** What every sentence `sent_cleaning` returns satisfies: fewer than 15
      copies of each special character, and more than two tokens. */
  predicate IsKeptSentence(s: string) {
    && (forall c | c in SpecChars :: Count(s, c) < NoiseLimit)
    && |Words(s)| > MinWords
  }

  /** Step 4 keeps the sentence. */
  predicate HasEnoughWords(s: string) {
    |Words(s)| > MinWords
  }

  /** `r` is what is left of `s` once its first token and the whitespace
      around it are removed: a suffix of `s` that starts on a token and holds
      exactly the tokens of `s` after the first. */
  predicate DropsFirstToken(s: string, r: string) {
    && IsSuffix(r, s)
    && |r| > 0 && !IsSpace(r[0])
    && |Words(s)| >= 2 && Words(r) == Words(s)[1..]
  }

  /** Step 1 on one sentence: `s.split(maxsplit=1)[1]` when the first token
      is all digits and there is a second token, `s` otherwise. A blank
      sentence has no first token: Python raises `IndexError` there, which
      `NumberPass` reports as `BlankSentence`. */
  function StripLeadingNumber(s: string): (r: string)
    requires !IsBlank(s)
    ensures IsDigits(Words(s)[0]) && |Words(s)| >= 2 ==> DropsFirstToken(s, r)
    ensures !(IsDigits(Words(s)[0]) && |Words(s)| >= 2) ==> r == s
  {
    SplitFirstAgreesWithWords(s);
    var parts := SplitFirst(s);
    if IsDigits(parts[0]) && |parts| > 1 then parts[1] else s
  }

  /** Step 2 on one sentence: `s.split(maxsplit=1)[1]` when there is a second
      token and the first character is special, `s` otherwise. The whole
      first token goes, not only the special character. */
  function StripLeadingSpecial(s: string): (r: string)
    ensures |Words(s)| >= 2 && s[0] in SpecChars ==> DropsFirstToken(s, r)
    ensures |Words(s)| >= 2 && s[0] in SpecChars ==> |r| < |s| - |Words(s)[0]|
    ensures !(|Words(s)| >= 2 && s[0] in SpecChars) ==> r == s
  {
    SplitFirstAgreesWithWords(s);
    var parts := SplitFirst(s);
    if |parts| > 1 && s[0] in SpecChars then
      FirstWordSplit(s);
      parts[1]
    else s
  }

  /** Steps 1 to 4 on one sentence: the cleaned sentence, or `None` when
      step 3 or 4 drops it. */
  function CleanSentence(s: string): (r: Option<string>)
    requires !IsBlank(s)
    ensures r.Some? ==> IsSuffix(r.value, s) && !IsNoisy(r.value) && HasEnoughWords(r.value)
  {
    var a := StripLeadingNumber(s);
    var b := StripLeadingSpecial(a);
    if IsNoisy(b) || !HasEnoughWords(b) then None
    else
      SuffixTransitive(b, a, s);
      Some(b)
  }

  // ---------------------------------------------------------------------
  // The four passes over a list of sentences

  /** The sentences of `xs` that satisfy `p`, in order. */
  function Filter(p: string -> bool, xs: seq<string>): (r: seq<string>)
    ensures |r| <= |xs|
    ensures forall k | 0 <= k < |r| :: p(r[k])
    ensures forall x :: x in r <==> x in xs && p(x)
  {
    if |xs| == 0 then []
    else (if p(xs[0]) then [xs[0]] else []) + Filter(p, xs[1..])
  }

  /** The position of the first blank sentence, `|sents|` when there is
      none. */
  function FirstBlank(sents: seq<string>): (i: nat)
    ensures i <= |sents|
    ensures i < |sents| ==> IsBlank(sents[i])
    ensures forall j | 0 <= j < i :: !IsBlank(sents[j])
  {
    if |sents| == 0 || IsBlank(sents[0]) then 0
    else
      var i := FirstBlank(sents[1..]);
      assert forall j | 0 < j <= i :: sents[j] == sents[1..][j - 1];
      1 + i
  }

  /** Pass 1: fails on the first blank sentence, otherwise strips a leading
      number from every sentence. */
  function NumberPass(sents: seq<string>): (r: Result<seq<string>, CleanError>)
    ensures r.Failure? <==> FirstBlank(sents) < |sents|
    ensures r.Failure? ==> r.error.index == FirstBlank(sents)
    ensures r.Success? ==> |r.value| == |sents|
    ensures r.Success? ==> forall i | 0 <= i < |sents| :: IsSuffix(r.value[i], sents[i])
    ensures r.Success? ==> forall i | 0 <= i < |sents| ::
      !IsBlank(sents[i]) && r.value[i] == StripLeadingNumber(sents[i])
  {
    match TryMap(NumberStep, sents)
    case Failure(stop) =>
      StepsBeforeFirstBlank(sents, stop.at);
      Failure(BlankSentence(stop.at))
    case Success(numbered) =>
      StepsBeforeFirstBlank(sents, |sents|);
      Success(numbered)
  }

  /** When step 1 succeeds on the first `k` sentences and fails on the next
      one (or there is none), the first blank sentence is at `k`. */
  lemma StepsBeforeFirstBlank(sents: seq<string>, k: nat)
    requires k <= |sents|
    requires k < |sents| ==> NumberStep(sents[k]).Failure?
    requires forall j | 0 <= j < k :: NumberStep(sents[j]).Success?
    ensures FirstBlank(sents) == k
  {
  }

  /** Step 1 on one sentence, raising on a blank one. */
  function NumberStep(s: string): Result<string, ()> {
    if IsBlank(s) then Failure(()) else Success(StripLeadingNumber(s))
  }

  /** Pass 2: strips a leading special token from every sentence. */
  function SpecialPass(sents: seq<string>): (r: seq<string>)
    ensures |r| == |sents|
    ensures forall i | 0 <= i < |sents| :: IsSuffix(r[i], sents[i])
    ensures forall i | 0 <= i < |sents| :: r[i] == StripLeadingSpecial(sents[i])
  {
    if |sents| == 0 then []
    else [StripLeadingSpecial(sents[0])] + SpecialPass(sents[1..])
  }

  /** `sent_cleaning`: the four passes in order. */
  function SentCleaning(sents: seq<string>): (r: Result<seq<string>, CleanError>)
    ensures r.Failure? <==> FirstBlank(sents) < |sents|
    ensures r.Failure? ==> r.error.index == FirstBlank(sents)
    ensures r.Success? ==> |r.value| <= |sents|
    ensures r.Success? ==> forall k | 0 <= k < |r.value| :: IsKeptSentence(r.value[k])
  {
    match NumberPass(sents)
    case Failure(e) => Failure(e)
    case Success(numbered) => Success(LaterPasses(numbered))
  }

  /** Passes 2 to 4, after pass 1 has succeeded. */
  function LaterPasses(numbered: seq<string>): (r: seq<string>)
    ensures |r| <= |numbered|
    ensures forall k | 0 <= k < |r| :: IsKeptSentence(r[k])
  {
    var special := SpecialPass(numbered);
    var quiet := Filter(IsQuiet, special);
    var long := Filter(HasEnoughWords, quiet);
    FiltersBoth(IsQuiet, HasEnoughWords, special);
    AllKept(long);
    long
  }

  /** What two filters keep passes both. */
  lemma FiltersBoth(p: string -> bool, q: string -> bool, xs: seq<string>)
    ensures var r := Filter(q, Filter(p, xs));
      forall k | 0 <= k < |r| :: p(r[k]) && q(r[k])
  {
    var r := Filter(q, Filter(p, xs));
    forall k | 0 <= k < |r| ensures p(r[k]) {
      assert r[k] in Filter(p, xs);
    }
  }

  /** Quiet sentences with enough tokens are what `sent_cleaning` keeps. */
  lemma AllKept(sents: seq<string>)
    requires forall k | 0 <= k < |sents| :: IsQuiet(sents[k]) && HasEnoughWords(sents[k])
    ensures forall k | 0 <= k < |sents| :: IsKeptSentence(sents[k])
  {
    forall k | 0 <= k < |sents| ensures IsKeptSentence(sents[k]) {
      NoisyIff(sents[k]);
    }
  }

  // ---------------------------------------------------------------------
  // Steps 1 to 4 as one pass per sentence

  /** `CleanSentence`, with `None` for a blank sentence. */
  function CleanOrDrop(s: string): Option<string> {
    if IsBlank(s) then None else CleanSentence(s)
  }

  /** Steps 1 to 4 fused into one pass: the sentences `CleanOrDrop` keeps,
      in order. */
  function CleanAll(sents: seq<string>): seq<string> {
    FilterMap(CleanOrDrop, sents)
  }

  // ---------------------------------------------------------------------
  // Counting and the noise rule

  /** `Count` is the multiplicity of `c` in `s`. */
  lemma {:induction false} CountIsMultiplicity(s: string, c: char)
    ensures Count(s, c) == multiset(s)[c]
    decreases |s|
  {
    if |s| > 0 {
      assert s == [s[0]] + s[1..];
      CountIsMultiplicity(s[1..], c);
    }
  }

  /** Counting distributes over concatenation. */
  lemma CountConcat(a: string, b: string, c: char)
    ensures Count(a + b, c) == Count(a, c) + Count(b, c)
  {
    CountIsMultiplicity(a + b, c);
    CountIsMultiplicity(a, c);
    CountIsMultiplicity(b, c);
    assert multiset(a + b) == multiset(a) + multiset(b);
  }

  /** Step 3 drops a sentence exactly when one special character occurs in
      it at least 15 times. */
  lemma NoisyIff(s: string)
    ensures IsNoisy(s) <==> exists c | c in SpecChars :: Count(s, c) >= NoiseLimit
  {
    var m := MaxCount(s, SpecChars);
    if IsNoisy(s) {
      var j :| 0 <= j < |SpecChars| && Count(s, SpecChars[j]) == m;
      assert SpecChars[j] in SpecChars;
    }
    if exists c | c in SpecChars :: Count(s, c) >= NoiseLimit {
      var c :| c in SpecChars && Count(s, c) >= NoiseLimit;
      var j :| 0 <= j < |SpecChars| && SpecChars[j] == c;
      assert Count(s, SpecChars[j]) <= m;
    }
  }

  // ---------------------------------------------------------------------
  // What steps 1 and 2 remove

  /** Step 1: `"<digits> <rest>"` becomes `rest` when `rest` starts on a
      token. */
  lemma StripNumberDropsDigits(d: string, rest: string)
    requires IsDigits(d)
    requires |rest| > 0 && !IsSpace(rest[0])
    ensures !IsBlank(d + (" " + rest)) && StripLeadingNumber(d + (" " + rest)) == rest
  {
    assert IsWord(d);
    assert TrimStart(" " + rest) == rest by {
      assert SpaceRun(" " + rest) == 1;
    }
    FirstWordOfConcat(d, " " + rest);
  }

  /** Step 1 leaves a sentence that is only a number as it is. */
  lemma StripNumberKeepsLoneNumber(d: string)
    requires IsDigits(d)
    ensures !IsBlank(d) && StripLeadingNumber(d) == d
  {
    assert IsWord(d);
    WordsConsWord(d, "");
    assert d + "" == d;
  }

  /** Step 2: a first token that starts with a special character goes
      whole, `"(a) <rest>"` becoming `rest`. */
  lemma StripSpecialDropsToken(w: string, rest: string)
    requires IsWord(w) && w[0] in SpecChars
    requires |rest| > 0 && !IsSpace(rest[0])
    ensures StripLeadingSpecial(w + (" " + rest)) == rest
  {
    assert TrimStart(" " + rest) == rest by {
      assert SpaceRun(" " + rest) == 1;
    }
    FirstWordOfConcat(w, " " + rest);
    assert (w + (" " + rest))[0] == w[0];
  }

  /** `r` holds the tokens of `s` after the first `k`. */
  predicate TokensDropped(s: string, r: string, k: nat) {
    k <= |Words(s)| && Words(r) == Words(s)[k..]
  }

  lemma TokensDroppedCompose(s: string, a: string, b: string, i: nat, j: nat)
    requires TokensDropped(s, a, i) && TokensDropped(a, b, j)
    ensures TokensDropped(s, b, i + j)
  {
    assert Words(s)[i..][j..] == Words(s)[i + j..];
  }

  lemma StripNumberTokens(s: string)
    requires !IsBlank(s)
    ensures TokensDropped(s, StripLeadingNumber(s), 0) || TokensDropped(s, StripLeadingNumber(s), 1)
  {
    assert Words(s)[0..] == Words(s);
  }

  lemma StripSpecialTokens(s: string)
    ensures TokensDropped(s, StripLeadingSpecial(s), 0) || TokensDropped(s, StripLeadingSpecial(s), 1)
  {
    assert Words(s)[0..] == Words(s);
  }

  /** The tokens of a cleaned sentence are those of the original with at
      most the first two removed. */
  lemma CleanSentenceWords(s: string)
    requires !IsBlank(s)
    ensures CleanSentence(s).Some? ==>
      exists k | 0 <= k <= 2 :: TokensDropped(s, CleanSentence(s).value, k)
    ensures CleanSentence(s).Some? ==> |Words(CleanSentence(s).value)| <= |Words(s)|
  {
    var a := StripLeadingNumber(s);
    var b := StripLeadingSpecial(a);
    StripNumberTokens(s);
    StripSpecialTokens(a);
    var i: nat := if TokensDropped(s, a, 0) then 0 else 1;
    var j: nat := if TokensDropped(a, b, 0) then 0 else 1;
    TokensDroppedCompose(s, a, b, i, j);
    CleanSentenceKeeps(s);
  }

  /** A sentence the cleaner keeps is the one steps 1 and 2 leave. */
  lemma CleanSentenceKeeps(s: string)
    requires !IsBlank(s)
    ensures CleanSentence(s) == None || CleanSentence(s) == Some(StripLeadingSpecial(StripLeadingNumber(s)))
  {
  }

  /** So a sentence of two or fewer tokens is always dropped. */
  lemma ShortSentenceDropped(s: string)
    requires !IsBlank(s) && |Words(s)| <= MinWords
    ensures CleanSentence(s) == None
  {
    CleanSentenceWords(s);
  }

  /** A sentence that starts neither with a number nor with a special
      character is dropped when it is noisy. */
  lemma NoisySentenceDropped(s: string)
    requires !IsBlank(s) && !IsDigits(Words(s)[0]) && s[0] !in SpecChars
    requires IsNoisy(s)
    ensures CleanSentence(s) == None
  {
  }

  /** The noise check runs after steps 1 and 2, so the noise in a stripped
      first token does not count: a first token of 15 or more copies of one
      special character (dots, say) makes the sentence noisy, yet the
      sentence is kept without that token. */
  lemma NoisyFirstTokenSurvives(c: char, w: string, rest: string)
    requires c in SpecChars && !IsDigit(c)
    requires IsWord(w) && w[0] == c && Count(w, c) >= NoiseLimit
    requires |rest| > 0 && !IsSpace(rest[0])
    requires IsQuiet(rest) && HasEnoughWords(rest)
    ensures IsNoisy(w + (" " + rest))
    ensures !IsBlank(w + (" " + rest)) && CleanSentence(w + (" " + rest)) == Some(rest)
  {
    RepeatsMakeNoise(c, w, " " + rest);
    FirstTokenOf(w, " " + rest);
    NonDigitTokenKept(w + (" " + rest));
    StripSpecialDropsToken(w, rest);
  }

  /** A sentence holding a noisy piece is noisy. */
  lemma RepeatsMakeNoise(c: char, w: string, x: string)
    requires c in SpecChars && Count(w, c) >= NoiseLimit
    ensures IsNoisy(w + x)
  {
    CountConcat(w, x, c);
    var j :| 0 <= j < |SpecChars| && SpecChars[j] == c;
    assert Count(w + x, SpecChars[j]) >= NoiseLimit;
  }

  /** A sentence whose first token starts with a non-digit passes step 1
      unchanged. */
  lemma NonDigitTokenKept(s: string)
    requires !IsBlank(s) && !IsDigit(Words(s)[0][0])
    ensures StripLeadingNumber(s) == s
  {
  }

  /** The first token of a token followed by whitespace is that token. */
  lemma FirstTokenOf(w: string, x: string)
    requires IsWord(w)
    requires |x| > 0 && IsSpace(x[0])
    ensures !IsBlank(w + x) && Words(w + x)[0] == w
  {
    FirstWordOfConcat(w, x);
  }

  /** Every sentence has a token. */
  predicate NoBlank(sents: seq<string>) {
    forall i | 0 <= i < |sents| :: !IsBlank(sents[i])
  }

  lemma NoBlankTail(sents: seq<string>)
    requires |sents| > 0 && NoBlank(sents)
    ensures !IsBlank(sents[0]) && NoBlank(sents[1..])
  {
    assert forall i | 0 <= i < |sents| - 1 :: sents[1..][i] == sents[i + 1];
  }

  lemma {:induction false} FilterConcat(p: string -> bool, a: seq<string>, b: seq<string>)
    ensures Filter(p, a + b) == Filter(p, a) + Filter(p, b)
    decreases |a|
  {
    if |a| > 0 {
      assert (a + b)[0] == a[0];
      assert (a + b)[1..] == a[1..] + b;
      FilterConcat(p, a[1..], b);
    } else {
      assert a + b == b;
    }
  }

  lemma NumberPassCons(x: string, xs: seq<string>)
    requires !IsBlank(x) && NoBlank(xs)
    ensures NumberPass([x] + xs) == Success([StripLeadingNumber(x)] + NumberPass(xs).value)
  {
    assert ([x] + xs)[1..] == xs;
  }

  /** Passes 2 to 4 treat each sentence on its own. */
  lemma LaterPassesCons(a: string, rest: seq<string>)
    ensures LaterPasses([a] + rest) == LaterPasses([a]) + LaterPasses(rest)
  {
    var b := StripLeadingSpecial(a);
    assert ([a] + rest)[1..] == rest;
    assert [a][1..] == [];
    assert SpecialPass([a] + rest) == [b] + SpecialPass(rest);
    assert SpecialPass([a]) == [b];
    FilterConcat(IsQuiet, [b], SpecialPass(rest));
    FilterConcat(HasEnoughWords, Filter(IsQuiet, [b]), Filter(IsQuiet, SpecialPass(rest)));
  }

  /** Two filters on a single sentence keep it when both keep it. */
  lemma FiltersSingle(p: string -> bool, q: string -> bool, b: string)
    ensures Filter(q, Filter(p, [b])) == if p(b) && q(b) then [b] else []
  {
    assert [b][1..] == [];
  }

  /** On one sentence, passes 2 to 4 strip it and keep it when it is quiet
      and has enough tokens. */
  lemma LaterPassesOne(a: string)
    ensures var b := StripLeadingSpecial(a);
      LaterPasses([a]) == if IsQuiet(b) && HasEnoughWords(b) then [b] else []
  {
    assert [a][1..] == [];
    FiltersSingle(IsQuiet, HasEnoughWords, StripLeadingSpecial(a));
  }

  /** On one numbered sentence, passes 2 to 4 are `CleanSentence`. */
  lemma LaterPassesSingle(x: string)
    requires !IsBlank(x)
    ensures LaterPasses([StripLeadingNumber(x)]) == Kept(CleanSentence(x))
  {
    LaterPassesOne(StripLeadingNumber(x));
  }

  /** Cleaning a list is cleaning its head, then its tail. */
  lemma SentCleaningCons(x: string, xs: seq<string>)
    requires !IsBlank(x) && NoBlank(xs)
    ensures SentCleaning([x] + xs) == Success(Kept(CleanSentence(x)) + SentCleaning(xs).value)
  {
    NumberPassCons(x, xs);
    LaterPassesCons(StripLeadingNumber(x), NumberPass(xs).value);
    LaterPassesSingle(x);
  }

  /** The four passes of `sent_cleaning` keep exactly the sentences that
      `CleanSentence` keeps, cleaned as it cleans them. */
  lemma {:induction false} CleaningFusion(sents: seq<string>)
    requires NoBlank(sents)
    ensures SentCleaning(sents) == Success(CleanAll(sents))
    decreases |sents|
  {
    if |sents| > 0 {
      assert [sents[0]] + sents[1..] == sents;
      NoBlankTail(sents);
      CleaningFusion(sents[1..]);
      SentCleaningCons(sents[0], sents[1..]);
    }
  }

  /** `sent_cleaning` never reorders or invents sentences: its output holds
      the cleaned forms of exactly the sentences `CleanSentence` keeps, in
      their input order, each a suffix of the sentence it came from. */
  lemma CleaningKeepsOrder(sents: seq<string>) returns (idx: seq<nat>)
    requires NoBlank(sents)
    ensures SentCleaning(sents).Success?
    ensures SelectsKept(CleanOrDrop, sents, idx, SentCleaning(sents).value)
    ensures forall k | 0 <= k < |idx| :: IsSuffix(SentCleaning(sents).value[k], sents[idx[k]])
  {
    CleaningFusion(sents);
    idx := FilterMapSelectsKept(CleanOrDrop, sents);
  }
}

=== FILE: wrappers.dfy ===
/** Failure-carrying result types shared by the cleaning modules. */
module Wrappers {

  /** A value that may be absent: a JSON field that is missing or `null`. */
  datatype Option<+T> = None | Some(value: T)

  /** The outcome of a step that can raise: either a value or the error it raised. */
  datatype Result<+R, +E> = Success(value: R) | Failure(error: E)
}
